=== FILE: README.md ===
# Signature verification and plain registration of the chat user service

This project models two sequential pieces of the chat application's user
service and proves properties of them in Dafny.

- `SignatureVerificationService` checks that a wallet signed a personal
  message. It frames the message as the byte 0x19, then
  `"Ethereum Signed Message:\n"`, then the message length in decimal, then the
  message. The length is `message.length()`, the count of UTF-16 units. It is
  taken before `getBytes()` encodes the framed string. Standard
  personal-message framing writes the byte count of the encoded message. The
  two agree only when every unit encodes to one byte. For "é" under UTF-8 the
  code writes "1" where wallet tooling writes "2". It hashes the framed message and decodes the hex
  signature, which must be 65 bytes. It turns the last byte `v` into a
  recovery id and tries the ids `recId, recId ^ 1, 2, 3` in that order. The
  first id whose recovery does not return null decides. A key gives the
  address `"0x" + getAddress(key)`, which is compared with the claimed address
  ignoring case. A throw ends the loop, because the `catch` sits outside it, so
  the result is null and the verdict `false` even when a later id would give a
  matching key. Every other failure also becomes `false`.
- `UserService.registerUser` registers a user with email and password. It
  checks the email, then the username, against the store. It builds a record
  with fixed defaults, saves it once and returns a `UserDto` projection.

The model has four modules:

- `Wrappers` (`wrappers.dfy`) holds `Option` for Java `null` and `Result` for
  a thrown exception's message.
- `JavaLang` (`java_lang.dfy`) holds the Java value semantics the code relies
  on:
  - a `byte` is signed, and `(byte)` narrowing is written out as `ToByte`;
  - a `String` is a sequence of UTF-16 code units, so `length()` is the unit
    count;
  - `Integer.toString` of a length is `Decimal`;
  - `x ^ 1` on an `int` is `XorOne`;
  - `String.equalsIgnoreCase` is `EqualsIgnoreCase`.
- `SignatureVerification` (`signature_verification.dfy`) holds the framing,
  the recovery-id arithmetic, the candidate loop, `recoverAddress` and
  `verifySignature`.
- `Users` (`user_service.dfy`) holds the entities, an abstract store with a
  fresh-id allocator, and `registerUser` as a pure state transition.

Some library routines are called but their code is not part of this model:

- web3j: Keccak-256 (`Hash.sha3`), `Numeric.hexStringToByteArray`,
  `Sign.recoverFromSignature` and `Keys.getAddress`;
- the JDK: `String.getBytes()` with the platform charset, and
  `Character.toUpperCase`/`toLowerCase`.

They are the function-typed fields of a `Primitives` value. Every signature
operation takes that value as a parameter, so every property holds whatever
these routines compute. A call that can throw returns a value that says so:
`Attempt` is `Threw | Returned(v)`, and `Recovery` is `Throws | NoKey | Key(k)`.
The service's catch-all handlers become total functions. `RecoverDetailed`
keeps each way of failing apart, and `recoverAddress` collapses every failure
to `null`.

Points where the code behaves in a way a reader might not expect:

- The code reads `v` as a signed Java `byte` (SignatureVerificationService.java:38).
  The bytes 0x80 to 0xFF are therefore below 27 and give negative recovery ids
  (`HighByteGivesNegativeRecoveryId`). Read as unsigned, they would give ids
  101 to 228.
- `RegisterRequestDto` puts only `@Size` on the username and password
  (RegisterRequestDto.java:14-18), and `@Size` accepts `null`. A request
  without them reaches `registerUser`, so both are `Option` values in the
  model. A `null` username is looked up like any other value and saved as
  `null`.
- This version of `registerUser` stores the raw password as `passwordHash`. It calls
  no hashing service and no search index, and it throws `RuntimeException`
  with the messages "Email already in use." and "Username already in use". Its
  `UserDto` has no email. The test file expects a hashed password
  (UserServiceTest.java:72-75, 91), an index call (99-104), `CONFLICT` status
  errors (120-121, 137-138) and an email in the result (107). The model
  follows `UserService.java`.
- The test agrees with `UserService.java` on these points, which the model
  proves:
  - the saved username, email, avatar, theme, notifications and empty friends
    list (UserServiceTest.java:89-90, 92-97);
  - the returned id, username and profile (105-106, 108);
  - no save when either check fails (124, 141).

## Model

| member | source | states |
|---|---|---|
| JavaLang.Decimal | service/src/main/java/com/prpo/chat/service/SignatureVerificationService.java:30 | The length appended to the prefix is written as at least one decimal digit, with no leading zero. |
| JavaLang.DecimalRoundTrip | service/src/main/java/com/prpo/chat/service/SignatureVerificationService.java:30 | Reading the decimal rendering back as a number gives the length that was rendered. |
| JavaLang.DecimalLengthMonotone | service/src/main/java/com/prpo/chat/service/SignatureVerificationService.java:30 | A longer message never has a shorter decimal length field. |
| JavaLang.ToByte | service/src/main/java/com/prpo/chat/service/SignatureVerificationService.java:39-41 | `v += 27` narrows to a byte: the result agrees with the sum modulo 256 and equals it when it is in byte range. |
| JavaLang.Magnitude | service/src/main/java/com/prpo/chat/service/SignatureVerificationService.java:43-53 | `new BigInteger(1, r)` is an unsigned number below 256 to the power of the byte count; `MagnitudeAppend` fixes its big-endian digit order. |
| JavaLang.MagnitudeInjective | service/src/main/java/com/prpo/chat/service/SignatureVerificationService.java:43-53 | Two byte strings of the same length with the same `BigInteger(1, …)` value are the same bytes, so `r` and `s` carry every byte of the signature. |
| JavaLang.MagnitudeAppend | service/src/main/java/com/prpo/chat/service/SignatureVerificationService.java:43-53 | `new BigInteger(1, …)` reads the bytes big-endian: the value of `a` followed by `b` is the value of `a` shifted up by one base-256 digit per byte of `b`, plus the value of `b`. |
| JavaLang.XorOne | service/src/main/java/com/prpo/chat/service/SignatureVerificationService.java:48 | `recId ^ 1` keeps `recId >> 1` and flips the parity, for negative ids too. |
| JavaLang.XorOneInvolution | service/src/main/java/com/prpo/chat/service/SignatureVerificationService.java:48 | Flipping the low bit twice gives the id back. |
| JavaLang.EqualsIgnoreCaseIsFoldedEquality | service/src/main/java/com/prpo/chat/service/SignatureVerificationService.java:22 | `equalsIgnoreCase` holds exactly when both strings are equal after lower-casing their upper-cased units, whatever the case tables. |
| JavaLang.EqualsIgnoreCaseTransitive | service/src/main/java/com/prpo/chat/service/SignatureVerificationService.java:22 | The address comparison is transitive. |
| JavaLang.AsciiCaseChangeEqualsIgnoreCase | service/src/main/java/com/prpo/chat/service/SignatureVerificationService.java:22 | Two addresses that differ only in the case of ASCII letters compare equal. |
| SignatureVerification.Frame | service/src/main/java/com/prpo/chat/service/SignatureVerificationService.java:16-30 | The hashed string starts with the byte 0x19 and "Ethereum Signed Message:\n" and ends with the message itself. |
| SignatureVerification.FrameLayout | service/src/main/java/com/prpo/chat/service/SignatureVerificationService.java:16-30 | The hashed string is the prefix, then a digit string whose value is the message's UTF-16 length, then the message. |
| SignatureVerification.FrameInjective | service/src/main/java/com/prpo/chat/service/SignatureVerificationService.java:30 | Distinct messages give distinct framed strings. |
| SignatureVerification.RecoveryId | service/src/main/java/com/prpo/chat/service/SignatureVerificationService.java:38-46 | The recovery id is `v` when the signed byte is below 27 and `v - 27` otherwise, lies in [-128, 100], and is 0 or 1 exactly when the byte is 0, 1, 27 or 28. |
| SignatureVerification.HighByteGivesNegativeRecoveryId | service/src/main/java/com/prpo/chat/service/SignatureVerificationService.java:38-46 | The bytes 0x80 to 0xFF give the negative recovery id `u - 256`. |
| SignatureVerification.Candidates | service/src/main/java/com/prpo/chat/service/SignatureVerificationService.java:48 | Four ids are tried: the recovery id, then the other id with the same `recId >> 1`, then 2, then 3. |
| SignatureVerification.CandidatesPermuteAllIds | service/src/main/java/com/prpo/chat/service/SignatureVerificationService.java:48 | For a recovery id of 0 or 1 the candidate order holds each of 0, 1, 2 and 3 exactly once. |
| SignatureVerification.LowIdsTriedOnlyFromLowRecoveryId | service/src/main/java/com/prpo/chat/service/SignatureVerificationService.java:48 | Id 0 or 1 is among the candidates exactly when the recovery id is 0 or 1. |
| SignatureVerification.HighRecoveryIdTriesOnlyHighIds | service/src/main/java/com/prpo/chat/service/SignatureVerificationService.java:48 | For a recovery id of 2 or 3 every candidate is 2 or 3. |
| SignatureVerification.Probe | service/src/main/java/com/prpo/chat/service/SignatureVerificationService.java:50-65 | The loop stops at a key or at a throw only after nulls at every earlier id; it runs out exactly when every id gives null. |
| SignatureVerification.ProbeFindsFirstKey | service/src/main/java/com/prpo/chat/service/SignatureVerificationService.java:50-59 | The loop returns key `k` at position `i` if and only if every earlier candidate gave null and candidate `i` gave `k`. |
| SignatureVerification.ProbeAbortsAtFirstThrow | service/src/main/java/com/prpo/chat/service/SignatureVerificationService.java:50-65 | The loop is aborted at position `i` if and only if every earlier candidate gave null and candidate `i` threw. |
| SignatureVerification.ProbeDependsOnlyOnTried | service/src/main/java/com/prpo/chat/service/SignatureVerificationService.java:50-60 | Two recovery routines that agree on the candidates actually tried give the same loop outcome. |
| SignatureVerification.ProbeLoop | service/src/main/java/com/prpo/chat/service/SignatureVerificationService.java:50-62 | The `for` loop with its early returns computes the same outcome as the first-stop definition. |
| SignatureVerification.RecoverDetailed | service/src/main/java/com/prpo/chat/service/SignatureVerificationService.java:28-66 | The body of `recoverAddress` fails as malformed hex exactly when hex decoding throws, as wrong length (with that length) exactly when it decodes to other than 65 bytes, and with no key exactly when every candidate returns null; a throw is reported for one of the candidate ids. |
| SignatureVerification.FirstKeyCharacterisesRecovery | service/src/main/java/com/prpo/chat/service/SignatureVerificationService.java:33-62 | Recovery succeeds exactly when the signature has 65 bytes, the first candidate that does not return null gives a key `k` (every earlier one returned null), and the address of `k` can be derived; the result is "0x" followed by that address. A throw before any key is not a success, even when a later candidate would give one. |
| SignatureVerification.RecoverAddress | service/src/main/java/com/prpo/chat/service/SignatureVerificationService.java:28-66 | `recoverAddress` returns "0x" plus the address of `k` when the first candidate that does not return null gives a key `k` (every earlier one returned null) and `Keys.getAddress(k)` returns, and null in every other case: bad hex, a length other than 65, every candidate null, a throw before any key, or `Keys.getAddress` throwing. |
| SignatureVerification.VerifySignature | service/src/main/java/com/prpo/chat/service/SignatureVerificationService.java:18-26 | `verifySignature` is true exactly when the first candidate that does not return null gives a key `k` (every earlier one returned null), the address of `k` can be derived, and "0x" plus that address equals the claim ignoring case. A throw before any key gives false. |
| SignatureVerification.WrongLengthRejected | service/src/main/java/com/prpo/chat/service/SignatureVerificationService.java:33-36 | A decoded signature that is not 65 bytes is reported as wrong length and fails verification. |
| SignatureVerification.ThrowSkipsRemainingCandidates | service/src/main/java/com/prpo/chat/service/SignatureVerificationService.java:50-65 | A throw on a candidate after only nulls makes recovery return null and verification fail, whatever later candidates would give. |
| SignatureVerification.HighRecoveryIdNeverTriesLowIds | service/src/main/java/com/prpo/chat/service/SignatureVerificationService.java:48-60 | For a recovery id of 2 or 3, changing what recovery does for ids 0 and 1 does not change the outcome. |
| SignatureVerification.CandidatesAfterStopIgnored | service/src/main/java/com/prpo/chat/service/SignatureVerificationService.java:50-60 | Changing what recovery does for ids that come only after the loop's stop does not change the outcome. |
| SignatureVerification.VerifyIgnoresClaimCase | service/src/main/java/com/prpo/chat/service/SignatureVerificationService.java:22 | Two claims equal ignoring case get the same verdict. |
| SignatureVerification.VerifyIgnoresAsciiCaseOfClaim | service/src/main/java/com/prpo/chat/service/SignatureVerificationService.java:22 | Claims such as "0xABCDEF" and "0xabcdef" get the same verdict. |
| Users.Save | service/src/main/java/com/prpo/chat/service/UserService.java:52 | A save appends the record with a fresh id and changes nothing else, so ids stay distinct and allocated. |
| Users.RegisterUser | service/src/main/java/com/prpo/chat/service/UserService.java:21-58 | A taken email fails with "Email already in use." and a taken username with "Username already in use", both with the store unchanged. Success happens exactly when both are free. On success one record is appended with the request's username, email and raw password, each `null` username or password kept as `null`, the default profile, DARK theme, notifications on and no friends, and the DTO projects that record. |
| Users.EmailCheckedFirst | service/src/main/java/com/prpo/chat/service/UserService.java:22-27 | When both the email and the username are taken, the email error is reported. |
| Users.ReturnedIdNamesSavedRecord | service/src/main/java/com/prpo/chat/service/UserService.java:52-57 | The returned id belongs to the saved record only, and the DTO's username and profile are that record's. |
| Users.RegisterPreservesUniqueness | service/src/main/java/com/prpo/chat/service/UserService.java:22-27 | Registration keeps emails and usernames unique across the store, with a `null` username counted as one value. |
| Users.RegisterTwiceFails | service/src/main/java/com/prpo/chat/service/UserService.java:22-24 | Repeating a successful registration fails on the email check and leaves the store unchanged. |

## Left out

- Cryptography and encoding internals: Keccak-256, secp256k1 recovery, hex decoding, address derivation, the platform charset of `getBytes()` and the Unicode case tables. They are parameters, and nothing is assumed about them except for `UpperCasesAscii`, which `AsciiCaseChangeEqualsIgnoreCase` and `VerifyIgnoresAsciiCaseOfClaim` require.
- Null arguments: a `null` message, signature or claimed address is not modelled. In the code each ends in a caught exception or a `false` comparison, so the result is `false`.
- The outer `catch` of `verifySignature` (lines 23-25) never fires in the model. `recoverAddress` catches everything itself, and `equalsIgnoreCase` with a non-null argument does not throw.
- `EqualsIgnoreCase` compares UTF-16 unit by unit, as `String.regionMatches` does. It does not model the newer JDK code that pairs surrogates.
- Wallet login and registration, password login and `setFriends`: their implementation is not part of this model; the test file only calls them.
- `UserController` is HTTP routing. `UserMapper` is generated MapStruct code. The framework enforces the `@Email`, `@NotBlank` and `@Size` checks on `RegisterRequestDto` before the service runs. The model takes the email as non-null, as `@NotBlank` guarantees, and does not model the size bounds. A `null` username or password passes these checks and is modelled.
- The hashing REST call, the search-index call and the `CONFLICT` status errors: this version of `registerUser` does not make these calls or throw these errors.
- Store persistence, how real ids are generated, uniqueness enforced by the store under concurrency, and `save` of a record that already has an id. `Users.Save` is a fresh-id allocator for new records only.
- `User.Theme` and the birthdate type are not part of this model. `Theme` holds `Dark` and `Other`, one stand-in for every other value, and `Date` is a plain year-month-day record.

=== FILE: java_lang.dfy ===
/** The slice of Java's value semantics that the service code relies on:
    signed bytes, UTF-16 strings, `Integer.toString` of a length, `x ^ 1` on
    an `int`, and `String.equalsIgnoreCase`. */
module JavaLang {

  /** A Java `byte`: a signed two's-complement 8-bit value. */
  newtype JByte = x: int | -128 <= x < 128

  /** A Java `char`: one UTF-16 code unit. */
  newtype CodeUnit = x: int | 0 <= x < 0x1_0000

  /** A Java `String` is a sequence of UTF-16 code units; `length()` is `|s|`. */
  type JString = seq<CodeUnit>

  // ---------------------------------------------------------------------------
  // Bytes
  // ---------------------------------------------------------------------------

  /** The narrowing conversion `(byte) x` (section 5.1.3 of the Java Language
      Specification): the value in byte range that agrees with `x` modulo 256. */
  function ToByte(x: int): (b: JByte)
    ensures (x - b as int) % 256 == 0
    ensures -128 <= x < 128 ==> b as int == x
  {
    ((x + 128) % 256 - 128) as JByte
  }

  /** `b & 0xFF`: the byte read as unsigned. */
  function Unsigned(b: JByte): (u: nat)
    ensures u < 256
    ensures ToByte(u) == b
  {
    if b < 0 then b as int + 256 else b as int
  }

  /** `new BigInteger(1, bytes)`: the bytes as a big-endian unsigned magnitude. */
  function Magnitude(bytes: seq<JByte>): (m: nat)
    ensures m < Pow256(|bytes|)
  {
    if |bytes| == 0 then 0
    else Magnitude(bytes[..|bytes| - 1]) * 256 + Unsigned(bytes[|bytes| - 1])
  }

  /** Equal-length byte strings with the same magnitude are the same bytes:
      every byte, sign included, is recovered from the number. */
  lemma {:induction false} MagnitudeInjective(a: seq<JByte>, b: seq<JByte>)
    requires |a| == |b|
    requires Magnitude(a) == Magnitude(b)
    ensures a == b
    decreases |a|
  {
    if |a| > 0 {
      var n := |a| - 1;
      var ua, ub := Unsigned(a[n]), Unsigned(b[n]);
      var ma, mb := Magnitude(a[..n]), Magnitude(b[..n]);
      LastDigit(ma, ua);
      LastDigit(mb, ub);
      assert a[n] == ToByte(ua) == ToByte(ub) == b[n];
      MagnitudeInjective(a[..n], b[..n]);
      assert a == a[..n] + [a[n]];
      assert b == b[..n] + [b[n]];
    }
  }

  /** The magnitude is big-endian: appending bytes shifts the earlier ones up
      by one base-256 digit per appended byte. */
  lemma {:induction false} MagnitudeAppend(a: seq<JByte>, b: seq<JByte>)
    ensures Magnitude(a + b) == Magnitude(a) * Pow256(|b|) + Magnitude(b)
    decreases |b|
  {
    if |b| > 0 {
      var n := |b| - 1;
      var ab := a + b;
      assert ab[..|ab| - 1] == a + b[..n];
      assert ab[|ab| - 1] == b[n];
      MagnitudeAppend(a, b[..n]);
      assert Magnitude(b) == Magnitude(b[..n]) * 256 + Unsigned(b[n]);
      ShiftDigit(Magnitude(a), Pow256(n), Magnitude(b[..n]), Unsigned(b[n]));
    } else {
      assert a + b == a;
    }
  }

  /** Appending one digit to `x * p + y` is appending it to `y` and shifting `x` one digit further. */
  lemma ShiftDigit(x: nat, p: nat, y: nat, u: nat)
    ensures (x * p + y) * 256 + u == x * (256 * p) + (y * 256 + u)
  {
  }

  /** A base-256 number splits into its last digit and the rest. */
  lemma LastDigit(m: nat, u: nat)
    requires u < 256
    ensures (m * 256 + u) / 256 == m
    ensures (m * 256 + u) % 256 == u
  {
  }

  /** 256 to the power `n`. */
  function Pow256(n: nat): (p: nat)
    ensures p >= 1
  {
    if n == 0 then 1 else 256 * Pow256(n - 1)
  }

  // ---------------------------------------------------------------------------
  // Strings
  // ---------------------------------------------------------------------------

  /** A Dafny string literal whose characters all lie in the Basic Multilingual
      Plane, as the Java string with the same characters. */
  function Units(s: string): JString
    requires forall i :: 0 <= i < |s| ==> s[i] as int < 0x1_0000
  {
    seq(|s|, i requires 0 <= i < |s| => s[i] as int as CodeUnit)
  }

  /** The code units '0' to '9'. */
  predicate IsDigit(c: CodeUnit) {
    0x30 <= c <= 0x39
  }

  /** `Integer.toString(n)` for a non-negative `n`, which is what `+` on a
      `String` and an `int` appends: decimal digits, most significant first. */
  function Decimal(n: nat): (r: JString)
    ensures 1 <= |r|
    ensures forall i :: 0 <= i < |r| ==> IsDigit(r[i])
    ensures |r| > 1 ==> r[0] != 0x30
    decreases n
  {
    if n < 10 then [(0x30 + n) as CodeUnit]
    else Decimal(n / 10) + [(0x30 + n % 10) as CodeUnit]
  }

  /** The number a string of decimal digits denotes (the reference reading of `Decimal`). */
  function DigitsValue(s: JString): nat
    requires forall i :: 0 <= i < |s| ==> IsDigit(s[i])
  {
    if |s| == 0 then 0
    else
      assert IsDigit(s[|s| - 1]);
      DigitsValue(s[..|s| - 1]) * 10 + (s[|s| - 1] as int - 0x30)
  }

  /** Reading the decimal rendering back gives the number rendered. */
  lemma {:induction false} DecimalRoundTrip(n: nat)
    ensures DigitsValue(Decimal(n)) == n
    decreases n
  {
    if n >= 10 {
      var d := Decimal(n);
      assert d[..|d| - 1] == Decimal(n / 10);
      DecimalRoundTrip(n / 10);
    }
  }

  /** A larger number never has a shorter rendering. */
  lemma {:induction false} DecimalLengthMonotone(a: nat, b: nat)
    requires a <= b
    ensures |Decimal(a)| <= |Decimal(b)|
    decreases b
  {
    if a >= 10 {
      DecimalLengthMonotone(a / 10, b / 10);
    }
  }

  // ---------------------------------------------------------------------------
  // Integers
  // ---------------------------------------------------------------------------

  /** `x ^ 1` on a Java `int`: flips the lowest bit of the two's-complement form,
      so the arithmetic shift `x >> 1` is kept and the parity changes. Dafny's
      `/` and `%` are Euclidean, so `x / 2` is `x >> 1` and `x % 2` is `x & 1`
      for negative `x` as well. */
  function XorOne(x: int): (r: int)
    ensures r / 2 == x / 2
    ensures r % 2 == 1 - x % 2
  {
    if x % 2 == 0 then x + 1 else x - 1
  }

  /** Flipping the low bit twice gives the number back. */
  lemma XorOneInvolution(x: int)
    ensures XorOne(XorOne(x)) == x
  {
  }

  // ---------------------------------------------------------------------------
  // Case-insensitive comparison
  // ---------------------------------------------------------------------------

  /** `Character.toUpperCase(char)` and `Character.toLowerCase(char)`. The Unicode
      case tables behind them are not part of this model, so they are parameters. */
  datatype CaseMapping = CaseMapping(upper: CodeUnit -> CodeUnit, lower: CodeUnit -> CodeUnit)

  /** One position of `String.equalsIgnoreCase`: the units are equal, or equal
      after upper-casing, or equal after lower-casing the upper-cased units. */
  predicate UnitsMatchIgnoringCase(cm: CaseMapping, a: CodeUnit, b: CodeUnit) {
    a == b || cm.upper(a) == cm.upper(b) || cm.lower(cm.upper(a)) == cm.lower(cm.upper(b))
  }

  /** `a.equalsIgnoreCase(b)` for a non-null `b`: same length and every position matches. */
  predicate EqualsIgnoreCase(cm: CaseMapping, a: JString, b: JString) {
    |a| == |b| && forall i :: 0 <= i < |a| ==> UnitsMatchIgnoringCase(cm, a[i], b[i])
  }

  /** The case fold the comparison amounts to: lower-case of upper-case. */
  function Fold(cm: CaseMapping, c: CodeUnit): CodeUnit {
    cm.lower(cm.upper(c))
  }

  /** Every unit of a string case-folded. */
  function FoldAll(cm: CaseMapping, s: JString): JString {
    seq(|s|, i requires 0 <= i < |s| => Fold(cm, s[i]))
  }

  /** `equalsIgnoreCase` holds exactly when the case-folded strings are equal,
      whatever the case tables are; so it is an equivalence relation. */
  lemma EqualsIgnoreCaseIsFoldedEquality(cm: CaseMapping, a: JString, b: JString)
    ensures EqualsIgnoreCase(cm, a, b) <==> FoldAll(cm, a) == FoldAll(cm, b)
  {
    if FoldAll(cm, a) == FoldAll(cm, b) {
      forall i | 0 <= i < |a|
        ensures UnitsMatchIgnoringCase(cm, a[i], b[i])
      {
        assert FoldAll(cm, a)[i] == FoldAll(cm, b)[i];
      }
    }
  }

  /** `equalsIgnoreCase` is symmetric. */
  lemma EqualsIgnoreCaseSymmetric(cm: CaseMapping, a: JString, b: JString)
    requires EqualsIgnoreCase(cm, a, b)
    ensures EqualsIgnoreCase(cm, b, a)
  {
    EqualsIgnoreCaseIsFoldedEquality(cm, a, b);
    EqualsIgnoreCaseIsFoldedEquality(cm, b, a);
  }

  /** `equalsIgnoreCase` is transitive. */
  lemma EqualsIgnoreCaseTransitive(cm: CaseMapping, a: JString, b: JString, c: JString)
    requires EqualsIgnoreCase(cm, a, b) && EqualsIgnoreCase(cm, b, c)
    ensures EqualsIgnoreCase(cm, a, c)
  {
    EqualsIgnoreCaseIsFoldedEquality(cm, a, b);
    EqualsIgnoreCaseIsFoldedEquality(cm, b, c);
    EqualsIgnoreCaseIsFoldedEquality(cm, a, c);
  }

  /** 'a' to 'z' as code units. */
  predicate IsAsciiLower(c: CodeUnit) {
    0x61 <= c <= 0x7A
  }

  /** 'A' to 'Z' as code units. */
  predicate IsAsciiUpper(c: CodeUnit) {
    0x41 <= c <= 0x5A
  }

  /** The unit with an ASCII capital letter turned into its small letter. */
  function AsciiToLower(c: CodeUnit): CodeUnit {
    if IsAsciiUpper(c) then c + 0x20 else c
  }

  /** What `Character.toUpperCase` does on ASCII letters, which every Java
      platform agrees on. */
  ghost predicate UpperCasesAscii(cm: CaseMapping) {
    && (forall c :: IsAsciiLower(c) ==> cm.upper(c) == c - 0x20)
    && (forall c :: IsAsciiUpper(c) ==> cm.upper(c) == c)
  }

  /** Two strings that differ only in the case of ASCII letters, such as
      "0xABCDEF" and "0xabcdef". */
  predicate SameUpToAsciiCase(a: JString, b: JString) {
    |a| == |b| && forall i :: 0 <= i < |a| ==> AsciiToLower(a[i]) == AsciiToLower(b[i])
  }

  /** Changing the case of ASCII letters keeps `equalsIgnoreCase` true. */
  lemma AsciiCaseChangeEqualsIgnoreCase(cm: CaseMapping, a: JString, b: JString)
    requires UpperCasesAscii(cm)
    requires SameUpToAsciiCase(a, b)
    ensures EqualsIgnoreCase(cm, a, b)
  {
    forall i | 0 <= i < |a|
      ensures UnitsMatchIgnoringCase(cm, a[i], b[i])
    {
      var x, y := a[i], b[i];
      assert AsciiToLower(x) == AsciiToLower(y);
      if x != y {
        if IsAsciiUpper(x) {
          assert cm.upper(x) == x;
          assert cm.upper(y) == y - 0x20;
        } else {
          assert cm.upper(y) == y;
          assert cm.upper(x) == x - 0x20;
        }
      }
    }
  }
}

=== FILE: signature_verification.dfy ===
/** `SignatureVerificationService`: recovers the wallet address that signed a
    personal message and compares it with the claimed one.

    The cryptography and encoding routines the service calls (Keccak-256,
    hex decoding, secp256k1 public-key recovery, address derivation, the
    platform charset) are not part of this model: they are the fields of a
    `Primitives` value that every operation takes as a parameter, so every
    property below holds whatever those routines compute. */
module SignatureVerification {
  import opened Wrappers
  import opened JavaLang

  // ---------------------------------------------------------------------------
  // Collaborators
  // ---------------------------------------------------------------------------

  /** A library call that either throws or returns a value. */
  datatype Attempt<+T> = Threw | Returned(value: T)

  /** One call of `Sign.recoverFromSignature`: it throws, returns `null`, or
      returns a public key. */
  datatype Recovery = Throws | NoKey | Key(publicKey: int)

  /** `new ECDSASignature(r, s)`. */
  datatype EcdsaSignature = EcdsaSignature(r: nat, s: nat)

  /** The library routines the service calls, with the Java call each stands for. */
  datatype Primitives = Primitives(
    getBytes: JString -> seq<JByte>,                                  // String.getBytes()
    sha3: seq<JByte> -> seq<JByte>,                                   // Hash.sha3
    hexToBytes: JString -> Attempt<seq<JByte>>,                       // Numeric.hexStringToByteArray
    recoverFromSignature: (int, EcdsaSignature, seq<JByte>) -> Recovery,  // Sign.recoverFromSignature
    getAddress: int -> Attempt<JString>,                              // Keys.getAddress
    caseMapping: CaseMapping)                                         // Character.toUpperCase/toLowerCase

  // ---------------------------------------------------------------------------
  // Message framing
  // ---------------------------------------------------------------------------

  /** `PERSONAL_MESSAGE_PREFIX`: the byte 0x19 followed by "Ethereum Signed Message:\n". */
  const PersonalMessagePrefix: JString := [0x19 as CodeUnit] + Units("Ethereum Signed Message:\n")

  /** The framed message that is hashed: the prefix, the message's length in
      UTF-16 units written in decimal, then the message. */
  function Frame(message: JString): (f: JString)
    ensures PersonalMessagePrefix <= f
    ensures |message| <= |f| && f[|f| - |message|..] == message
  {
    PersonalMessagePrefix + Decimal(|message|) + message
  }

  /** The framed string splits back into the prefix, a decimal number equal to
      the message length, and the message itself. */
  lemma FrameLayout(message: JString)
    ensures var f := Frame(message);
      && |f| == |PersonalMessagePrefix| + |Decimal(|message|)| + |message|
      && f[..|PersonalMessagePrefix|] == PersonalMessagePrefix
      && f[|f| - |message|..] == message
      && var digits := f[|PersonalMessagePrefix|..|f| - |message|];
      && (forall i :: 0 <= i < |digits| ==> IsDigit(digits[i]))
      && DigitsValue(digits) == |message|
  {
    var f := Frame(message);
    var p := |PersonalMessagePrefix|;
    assert f[p..|f| - |message|] == Decimal(|message|);
    DecimalRoundTrip(|message|);
  }

  /** Distinct messages have distinct framed strings. */
  lemma FrameInjective(m1: JString, m2: JString)
    requires Frame(m1) == Frame(m2)
    ensures m1 == m2
  {
    if |m1| < |m2| {
      DecimalLengthMonotone(|m1|, |m2|);
    } else if |m2| < |m1| {
      DecimalLengthMonotone(|m2|, |m1|);
    }
    assert |m1| == |m2|;
    var f := Frame(m1);
    assert m1 == f[|f| - |m1|..];
    assert m2 == Frame(m2)[|f| - |m2|..];
  }

  /** `Hash.sha3(prefixedMessage.getBytes())`. */
  function MessageHash(p: Primitives, message: JString): seq<JByte> {
    p.sha3(p.getBytes(Frame(message)))
  }

  // ---------------------------------------------------------------------------
  // Recovery id
  // ---------------------------------------------------------------------------

  /** The recovery id computed from the last signature byte: the byte is read
      as a signed Java `byte`, 27 is added in byte arithmetic when it is below
      27, and 27 is taken away as an `int`. */
  function RecoveryId(v: JByte): (recId: int)
    ensures -128 <= recId <= 100
    ensures recId == if v < 27 then v as int else v as int - 27
    ensures recId in {0, 1} <==> v in {0, 1, 27, 28}
  {
    var normalised := if v < 27 then ToByte(v as int + 27) else v;
    normalised as int - 27
  }

  /** The bytes 0x80 to 0xFF are negative as a `byte`, so they are not
      normalised to 27 or 28 but give a negative recovery id. */
  lemma HighByteGivesNegativeRecoveryId(u: nat)
    requires 0x80 <= u <= 0xFF
    ensures RecoveryId(ToByte(u)) == u - 256
    ensures RecoveryId(ToByte(u)) < 0
  {
    assert ToByte(u) as int == u - 256;
  }

  /** The fixed order in which recovery ids are tried: `{recId, recId ^ 1, 2, 3}`. */
  function Candidates(recId: int): (ids: seq<int>)
    ensures |ids| == 4
    ensures ids[0] == recId
    ensures ids[1] != recId && ids[1] / 2 == recId / 2
    ensures ids[2] == 2 && ids[3] == 3
  {
    [recId, XorOne(recId), 2, 3]
  }

  /** For a recovery id of 0 or 1 the order tries each of 0 to 3, every one once. */
  lemma CandidatesPermuteAllIds(recId: int)
    requires recId in {0, 1}
    ensures multiset(Candidates(recId)) == multiset{0, 1, 2, 3}
  {
  }

  /** Ids 0 and 1 are tried exactly when the recovery id is itself 0 or 1. */
  lemma LowIdsTriedOnlyFromLowRecoveryId(recId: int)
    ensures (0 in Candidates(recId) || 1 in Candidates(recId)) <==> recId in {0, 1}
  {
    XorOneInvolution(recId);
    assert XorOne(0) == 1 && XorOne(1) == 0;
  }

  /** For a recovery id of 2 or 3 only ids 2 and 3 are tried. */
  lemma HighRecoveryIdTriesOnlyHighIds(recId: int)
    requires recId in {2, 3}
    ensures forall i :: 0 <= i < |Candidates(recId)| ==> Candidates(recId)[i] in {2, 3}
  {
  }

  // ---------------------------------------------------------------------------
  // The candidate loop
  // ---------------------------------------------------------------------------

  /** Where the candidate loop stopped: at the index of the first id that gave a
      key, at the index of the first id whose attempt threw, or after all ids. */
  datatype ProbeResult = Found(publicKey: int, at: nat) | Aborted(at: nat) | Exhausted {
    /** The same stop seen from a sequence one id longer at the front. */
    function Shift(): ProbeResult {
      match this
      case Found(k, i) => Found(k, i + 1)
      case Aborted(i) => Aborted(i + 1)
      case Exhausted => Exhausted
    }
  }

  /** The ids are tried in order; the loop returns at the first key, and since
      the `catch` is outside the loop, the first throw ends it too. */
  function Probe(ids: seq<int>, attempt: int -> Recovery): (r: ProbeResult)
    ensures r.Found? ==> r.at < |ids| && attempt(ids[r.at]) == Key(r.publicKey)
    ensures r.Aborted? ==> r.at < |ids| && attempt(ids[r.at]) == Throws
    ensures !r.Exhausted? ==> forall j :: 0 <= j < r.at ==> attempt(ids[j]) == NoKey
    ensures r.Exhausted? <==> forall j :: 0 <= j < |ids| ==> attempt(ids[j]) == NoKey
    decreases |ids|
  {
    if |ids| == 0 then Exhausted
    else
      match attempt(ids[0])
      case Key(k) => Found(k, 0)
      case Throws => Aborted(0)
      case NoKey => Probe(ids[1..], attempt).Shift()
  }

  /** The key found is the one at the first id that does not return null:
      nothing after it can replace it. */
  lemma ProbeFindsFirstKey(ids: seq<int>, attempt: int -> Recovery, i: nat, k: int)
    requires i < |ids|
    ensures Probe(ids, attempt) == Found(k, i) <==>
      (forall j :: 0 <= j < i ==> attempt(ids[j]) == NoKey) && attempt(ids[i]) == Key(k)
  {
    var r := Probe(ids, attempt);
    if (forall j :: 0 <= j < i ==> attempt(ids[j]) == NoKey) && attempt(ids[i]) == Key(k) {
      assert !r.Exhausted?;
    }
  }

  /** The loop aborts at the first id that throws before any key, whatever
      the later ids would have given. */
  lemma ProbeAbortsAtFirstThrow(ids: seq<int>, attempt: int -> Recovery, i: nat)
    requires i < |ids|
    ensures Probe(ids, attempt) == Aborted(i) <==>
      (forall j :: 0 <= j < i ==> attempt(ids[j]) == NoKey) && attempt(ids[i]) == Throws
  {
    var r := Probe(ids, attempt);
    if (forall j :: 0 <= j < i ==> attempt(ids[j]) == NoKey) && attempt(ids[i]) == Throws {
      assert !r.Exhausted?;
    }
  }

  /** The number of ids the loop calls recovery with. */
  function Tried(ids: seq<int>, attempt: int -> Recovery): (n: nat)
    ensures n <= |ids|
  {
    var r := Probe(ids, attempt);
    if r.Exhausted? then |ids| else r.at + 1
  }

  /** The loop's outcome depends only on the ids it actually tried: an attempt
      function that agrees on those gives the same outcome. */
  lemma {:induction false} ProbeDependsOnlyOnTried(ids: seq<int>, a1: int -> Recovery, a2: int -> Recovery)
    requires forall j :: 0 <= j < Tried(ids, a1) ==> a1(ids[j]) == a2(ids[j])
    ensures Probe(ids, a1) == Probe(ids, a2)
    decreases |ids|
  {
    if |ids| > 0 {
      assert a1(ids[0]) == a2(ids[0]);
      if a1(ids[0]) == NoKey {
        var rest := ids[1..];
        forall j | 0 <= j < Tried(rest, a1)
          ensures a1(rest[j]) == a2(rest[j])
        {
          assert rest[j] == ids[j + 1];
        }
        ProbeDependsOnlyOnTried(rest, a1, a2);
      }
    }
  }

  /** The candidate loop written as the service writes it: a `for` over the ids
      that returns from inside the loop. */
  method ProbeLoop(ids: seq<int>, attempt: int -> Recovery) returns (r: ProbeResult)
    ensures r == Probe(ids, attempt)
  {
    var i := 0;
    while i < |ids|
      invariant 0 <= i <= |ids|
      invariant forall j :: 0 <= j < i ==> attempt(ids[j]) == NoKey
    {
      match attempt(ids[i]) {
        case Key(k) =>
          ProbeFindsFirstKey(ids, attempt, i, k);
          return Found(k, i);
        case Throws =>
          ProbeAbortsAtFirstThrow(ids, attempt, i);
          return Aborted(i);
        case NoKey =>
      }
      i := i + 1;
    }
    return Exhausted;
  }

  // ---------------------------------------------------------------------------
  // recoverAddress and verifySignature
  // ---------------------------------------------------------------------------

  /** Why `recoverAddress` returned what it did. The service collapses every
      variant but `Recovered` into `null`. */
  datatype Recovered =
    | Recovered(address: JString)   // "0x" + Keys.getAddress(key)
    | MalformedHex                  // hexStringToByteArray threw
    | WrongLength(length: nat)      // the signature is not 65 bytes
    | NoCandidateKey                // every candidate id returned null
    | CandidateThrew(id: int)       // recovery threw for this candidate; later ones were skipped
    | AddressThrew                  // Keys.getAddress threw
  {
    /** The `String` the service returns, `null` for every failure. */
    function ToNullable(): Option<JString> {
      if Recovered? then Some(address) else None
    }
  }

  /** The recovery attempt for one candidate id, with `r` and `s` read as
      unsigned big-endian numbers from bytes 0-31 and 32-63. */
  function AttemptFor(p: Primitives, bytes: seq<JByte>, hash: seq<JByte>): int -> Recovery
    requires |bytes| == 65
  {
    var sig := EcdsaSignature(Magnitude(bytes[..32]), Magnitude(bytes[32..64]));
    id => p.recoverFromSignature(id, sig, hash)
  }

  /** The body of `recoverAddress`, with each way of failing kept apart. */
  function RecoverDetailed(p: Primitives, message: JString, signature: JString): (r: Recovered)
    ensures r.MalformedHex? <==> p.hexToBytes(signature).Threw?
    ensures r.WrongLength? <==> p.hexToBytes(signature).Returned? && |p.hexToBytes(signature).value| != 65
    ensures r.WrongLength? ==> r.length == |p.hexToBytes(signature).value|
    ensures r.NoCandidateKey? <==>
      && p.hexToBytes(signature).Returned?
      && |p.hexToBytes(signature).value| == 65
      && var bytes := p.hexToBytes(signature).value;
      && var ids := Candidates(RecoveryId(bytes[64]));
      && forall j :: 0 <= j < |ids| ==> AttemptFor(p, bytes, MessageHash(p, message))(ids[j]) == NoKey
    ensures r.CandidateThrew? ==>
      && p.hexToBytes(signature).Returned?
      && |p.hexToBytes(signature).value| == 65
      && r.id in Candidates(RecoveryId(p.hexToBytes(signature).value[64]))
  {
    var hash := MessageHash(p, message);
    match p.hexToBytes(signature)
    case Threw => MalformedHex
    case Returned(bytes) =>
      if |bytes| != 65 then WrongLength(|bytes|)
      else
        var ids := Candidates(RecoveryId(bytes[64]));
        match Probe(ids, AttemptFor(p, bytes, hash))
        case Exhausted => NoCandidateKey
        case Aborted(i) => CandidateThrew(ids[i])
        case Found(k, _) =>
          match p.getAddress(k)
          case Threw => AddressThrew
          case Returned(a) => Recovered(Units("0x") + a)
  }

  /** The signature decodes to 65 bytes, and candidate `i` of its recovery-id
      order is the first to give a key, `k`, every earlier one returning null. */
  ghost predicate FirstKeyAt(p: Primitives, message: JString, signature: JString, i: nat, k: int) {
    && p.hexToBytes(signature).Returned?
    && |p.hexToBytes(signature).value| == 65
    && i < 4
    && var bytes := p.hexToBytes(signature).value;
    && var ids := Candidates(RecoveryId(bytes[64]));
    && var attempt := AttemptFor(p, bytes, MessageHash(p, message));
    && (forall j :: 0 <= j < i ==> attempt(ids[j]) == NoKey)
    && attempt(ids[i]) == Key(k)
  }

  /** `recoverAddress(message, signature)`: "0x" followed by the address of
      the key `k` when the first candidate id that does not return null gives
      `k` and its address can be derived; `null` in every other case (bad hex,
      not 65 bytes, every candidate null, a throw before any key, or
      `Keys.getAddress` throwing). */
  function RecoverAddress(p: Primitives, message: JString, signature: JString): (r: Option<JString>)
    ensures p.hexToBytes(signature).Threw? ==> r == None
    ensures p.hexToBytes(signature).Returned? && |p.hexToBytes(signature).value| != 65 ==> r == None
    ensures r.Some? <==> exists i: nat, k :: FirstKeyAt(p, message, signature, i, k) && p.getAddress(k).Returned?
    ensures forall i: nat, k :: FirstKeyAt(p, message, signature, i, k) && p.getAddress(k).Returned? ==>
      r == Some(Units("0x") + p.getAddress(k).value)
  {
    var d := RecoverDetailed(p, message, signature);
    FirstKeyCharacterisesRecovery(p, message, signature);
    d.ToNullable()
  }

  /** `RecoverDetailed` ends in `Recovered` exactly when the first candidate
      that does not return null gives a key (every earlier one returned null)
      and that key's address can be derived. */
  lemma FirstKeyCharacterisesRecovery(p: Primitives, message: JString, signature: JString)
    ensures forall i: nat, k :: FirstKeyAt(p, message, signature, i, k) && p.getAddress(k).Returned? ==>
      RecoverDetailed(p, message, signature) == Recovered(Units("0x") + p.getAddress(k).value)
    ensures RecoverDetailed(p, message, signature).Recovered? ==>
      exists i: nat, k :: FirstKeyAt(p, message, signature, i, k) && p.getAddress(k).Returned?
  {
    forall i: nat, k | FirstKeyAt(p, message, signature, i, k) && p.getAddress(k).Returned?
      ensures RecoverDetailed(p, message, signature) == Recovered(Units("0x") + p.getAddress(k).value)
    {
      var bytes := p.hexToBytes(signature).value;
      ProbeFindsFirstKey(Candidates(RecoveryId(bytes[64])), AttemptFor(p, bytes, MessageHash(p, message)), i, k);
    }
    if RecoverDetailed(p, message, signature).Recovered? {
      var bytes := p.hexToBytes(signature).value;
      var r := Probe(Candidates(RecoveryId(bytes[64])), AttemptFor(p, bytes, MessageHash(p, message)));
      assert FirstKeyAt(p, message, signature, r.at, r.publicKey);
    }
  }

  /** `verifySignature(message, signature, walletAddress)`: true exactly when
      the first candidate that does not return null gives a key (every earlier
      one returned null) and "0x" followed by that key's address equals the
      claimed address ignoring case. A throw before any key gives false. The claim plays
      no part in choosing the key, so a later candidate that would match cannot
      rescue an earlier one that does not. */
  function VerifySignature(p: Primitives, message: JString, signature: JString, walletAddress: JString): (ok: bool)
    ensures ok <==> (exists i: nat, k :: FirstKeyAt(p, message, signature, i, k) && p.getAddress(k).Returned?
                       && EqualsIgnoreCase(p.caseMapping, Units("0x") + p.getAddress(k).value, walletAddress))
  {
    match RecoverAddress(p, message, signature)
    case None => false
    case Some(recovered) => EqualsIgnoreCase(p.caseMapping, recovered, walletAddress)
  }

  /** A signature that is not 65 bytes long is rejected whatever the message,
      the claim or the recovery routine. */
  lemma WrongLengthRejected(p: Primitives, message: JString, signature: JString, walletAddress: JString)
    requires p.hexToBytes(signature).Returned?
    requires |p.hexToBytes(signature).value| != 65
    ensures RecoverDetailed(p, message, signature) == WrongLength(|p.hexToBytes(signature).value|)
    ensures !VerifySignature(p, message, signature, walletAddress)
  {
  }

  /** A throw from recovery on one candidate, after only nulls, gives `null`
      even when a later candidate would have given a key. */
  lemma ThrowSkipsRemainingCandidates(p: Primitives, message: JString, signature: JString, walletAddress: JString, i: nat)
    requires p.hexToBytes(signature).Returned?
    requires |p.hexToBytes(signature).value| == 65
    requires i < 4
    requires var bytes := p.hexToBytes(signature).value;
      var ids := Candidates(RecoveryId(bytes[64]));
      var attempt := AttemptFor(p, bytes, MessageHash(p, message));
      (forall j :: 0 <= j < i ==> attempt(ids[j]) == NoKey) && attempt(ids[i]) == Throws
    ensures RecoverDetailed(p, message, signature).CandidateThrew?
    ensures RecoverAddress(p, message, signature) == None
    ensures !VerifySignature(p, message, signature, walletAddress)
  {
    var bytes := p.hexToBytes(signature).value;
    ProbeAbortsAtFirstThrow(Candidates(RecoveryId(bytes[64])), AttemptFor(p, bytes, MessageHash(p, message)), i);
  }

  /** `p2` is `p1` with a recovery routine that may differ only for the ids in `changed`. */
  ghost predicate RecoveryDiffersOnlyAt(p1: Primitives, p2: Primitives, changed: set<int>) {
    && p2 == p1.(recoverFromSignature := p2.recoverFromSignature)
    && forall id, sig, hash :: id !in changed ==>
         p1.recoverFromSignature(id, sig, hash) == p2.recoverFromSignature(id, sig, hash)
  }

  /** The candidates after the one where the loop stopped are never tried:
      changing what recovery does for ids that appear only after the stop
      changes nothing. */
  lemma CandidatesAfterStopIgnored(p1: Primitives, p2: Primitives, message: JString, signature: JString, changed: set<int>)
    requires RecoveryDiffersOnlyAt(p1, p2, changed)
    requires p1.hexToBytes(signature).Returned?
    requires |p1.hexToBytes(signature).value| == 65
    requires var bytes := p1.hexToBytes(signature).value;
      var ids := Candidates(RecoveryId(bytes[64]));
      forall j :: 0 <= j < Tried(ids, AttemptFor(p1, bytes, MessageHash(p1, message))) ==> ids[j] !in changed
    ensures RecoverDetailed(p1, message, signature) == RecoverDetailed(p2, message, signature)
  {
    var bytes := p1.hexToBytes(signature).value;
    var ids := Candidates(RecoveryId(bytes[64]));
    var hash := MessageHash(p1, message);
    assert MessageHash(p2, message) == hash;
    ProbeDependsOnlyOnTried(ids, AttemptFor(p1, bytes, hash), AttemptFor(p2, bytes, hash));
  }

  /** With a recovery id of 2 or 3 the ids 0 and 1 are never tried: changing
      what recovery does for them changes nothing. */
  lemma HighRecoveryIdNeverTriesLowIds(p1: Primitives, p2: Primitives, message: JString, signature: JString)
    requires RecoveryDiffersOnlyAt(p1, p2, {0, 1})
    requires p1.hexToBytes(signature).Returned?
    requires |p1.hexToBytes(signature).value| == 65
    requires RecoveryId(p1.hexToBytes(signature).value[64]) in {2, 3}
    ensures RecoverDetailed(p1, message, signature) == RecoverDetailed(p2, message, signature)
  {
    var bytes := p1.hexToBytes(signature).value;
    HighRecoveryIdTriesOnlyHighIds(RecoveryId(bytes[64]));
    CandidatesAfterStopIgnored(p1, p2, message, signature, {0, 1});
  }

  /** The verdict does not change when the claimed address changes only in a
      way `equalsIgnoreCase` ignores. */
  lemma VerifyIgnoresClaimCase(p: Primitives, message: JString, signature: JString, claim1: JString, claim2: JString)
    requires EqualsIgnoreCase(p.caseMapping, claim1, claim2)
    ensures VerifySignature(p, message, signature, claim1) == VerifySignature(p, message, signature, claim2)
  {
    EqualsIgnoreCaseSymmetric(p.caseMapping, claim1, claim2);
    match RecoverAddress(p, message, signature)
    case None =>
    case Some(a) =>
      if EqualsIgnoreCase(p.caseMapping, a, claim1) {
        EqualsIgnoreCaseTransitive(p.caseMapping, a, claim1, claim2);
      }
      if EqualsIgnoreCase(p.caseMapping, a, claim2) {
        EqualsIgnoreCaseTransitive(p.caseMapping, a, claim2, claim1);
      }
  }

  /** In particular, "0xABCDEF" and "0xabcdef" get the same verdict. */
  lemma VerifyIgnoresAsciiCaseOfClaim(p: Primitives, message: JString, signature: JString, claim1: JString, claim2: JString)
    requires UpperCasesAscii(p.caseMapping)
    requires SameUpToAsciiCase(claim1, claim2)
    ensures VerifySignature(p, message, signature, claim1) == VerifySignature(p, message, signature, claim2)
  {
    AsciiCaseChangeEqualsIgnoreCase(p.caseMapping, claim1, claim2);
    VerifyIgnoresClaimCase(p, message, signature, claim1, claim2);
  }
}

=== FILE: user_service.dfy ===
/** `UserService.registerUser`: plain (email and password) registration, as a
    pure transition on an abstract user store. */
module Users {
  import opened Wrappers
  import opened JavaLang

  // ---------------------------------------------------------------------------
  // Entities and DTOs
  // ---------------------------------------------------------------------------

  /** The ids the store hands out on a first save. */
  type UserId = nat

  /** `User.Theme`. The enum's declaration is not part of this model; the service
      only ever uses `DARK`, and `Other` stands for whatever other values it has. */
  datatype Theme = Dark | Other

  /** A calendar date, for the profile's birthdate. */
  datatype Date = Date(year: int, month: int, day: int)

  /** `User.Profile`; a `null` birthdate is `None`. */
  datatype Profile = Profile(bio: JString, birthdate: Option<Date>, avatarUrl: JString)

  /** `User.Settings`. */
  datatype Settings = Settings(theme: Theme, notifications: bool)

  /** `User`: `id` is `None` until the store assigns one on save. */
  datatype User = User(
    id: Option<UserId>,
    username: Option<JString>,
    email: JString,
    passwordHash: Option<JString>,
    profile: Profile,
    settings: Settings,
    friends: seq<UserId>)

  /** `RegisterRequestDto`. The email is `@NotBlank`, so never `null`; the
      username and password carry only `@Size`, which lets `null` through. */
  datatype RegisterRequest = RegisterRequest(email: JString, username: Option<JString>, password: Option<JString>)

  /** `UserDto`: the public view of a user; it carries no email and no password. */
  datatype UserDto = UserDto(id: Option<UserId>, username: Option<JString>, profile: Profile)

  // ---------------------------------------------------------------------------
  // The store
  // ---------------------------------------------------------------------------

  /** The user repository: the saved records in save order, and the next id
      its allocator will hand out. */
  datatype Store = Store(users: seq<User>, nextId: UserId)

  /** Every saved record has an id the allocator already handed out, and no two
      records share one. */
  ghost predicate IdsValid(s: Store) {
    && (forall i :: 0 <= i < |s.users| ==> s.users[i].id.Some? && s.users[i].id.value < s.nextId)
    && (forall i, j :: 0 <= i < j < |s.users| ==> s.users[i].id != s.users[j].id)
  }

  /** No two records share an email, and no two share a username (`null` included). */
  ghost predicate Unique(s: Store) {
    && (forall i, j :: 0 <= i < j < |s.users| ==> s.users[i].email != s.users[j].email)
    && (forall i, j :: 0 <= i < j < |s.users| ==> s.users[i].username != s.users[j].username)
  }

  /** `userRepository.existsByEmail(email)`. */
  predicate ExistsByEmail(s: Store, email: JString) {
    exists i :: 0 <= i < |s.users| && s.users[i].email == email
  }

  /** `userRepository.existsByUsername(username)`; a derived query on `null`
      matches the records whose username is `null`. */
  predicate ExistsByUsername(s: Store, username: Option<JString>) {
    exists i :: 0 <= i < |s.users| && s.users[i].username == username
  }

  /** `userRepository.save(user)` for a record without an id: the record gets a
      fresh id and is appended; nothing already stored changes. */
  function Save(s: Store, u: User): (r: (Store, User))
    requires u.id.None?
    ensures r.1 == u.(id := r.1.id) && r.1.id.Some?
    ensures r.0.users == s.users + [r.1]
    ensures IdsValid(s) ==> IdsValid(r.0)
  {
    var saved := u.(id := Some(s.nextId));
    (Store(s.users + [saved], s.nextId + 1), saved)
  }

  // ---------------------------------------------------------------------------
  // registerUser
  // ---------------------------------------------------------------------------

  /** The message of the exception thrown when the email is taken. */
  const EmailInUse: JString := Units("Email already in use.")

  /** The message of the exception thrown when the username is taken. */
  const UsernameInUse: JString := Units("Username already in use")

  /** The avatar every new profile gets. */
  const DefaultAvatarUrl: JString := Units("https://example.com/avatar.jpg")

  /** The store after a registration attempt, with the returned DTO or the
      message of the exception thrown. */
  datatype Registration = Registration(store: Store, outcome: Result<UserDto, JString>)

  /** The record `registerUser` builds before saving it; it has no id yet, so
      the store assigns one. */
  function NewUser(request: RegisterRequest): (u: User)
    ensures u.id.None?
  {
    User(
      None,
      request.username,
      request.email,
      request.password,
      Profile([], None, DefaultAvatarUrl),
      Settings(Dark, true),
      [])
  }

  /** `registerUser(request)`: the email check, then the username check; on
      success one save of a record with the service's defaults, projected to
      a `UserDto`. A failed attempt leaves the store as it was. */
  function RegisterUser(s: Store, request: RegisterRequest): (r: Registration)
    ensures ExistsByEmail(s, request.email) ==> r == Registration(s, Failure(EmailInUse))
    ensures !ExistsByEmail(s, request.email) && ExistsByUsername(s, request.username) ==>
      r == Registration(s, Failure(UsernameInUse))
    ensures r.outcome.Success? <==> !ExistsByEmail(s, request.email) && !ExistsByUsername(s, request.username)
    ensures r.outcome.Success? ==>
      && |r.store.users| == |s.users| + 1
      && r.store.users[..|s.users|] == s.users
      && var saved := r.store.users[|s.users|];
      && saved.username == request.username
      && saved.email == request.email
      && saved.passwordHash == request.password
      && saved.profile == Profile([], None, DefaultAvatarUrl)
      && saved.settings == Settings(Dark, true)
      && saved.friends == []
      && saved.id.Some?
      && r.outcome.value == UserDto(saved.id, saved.username, saved.profile)
  {
    if ExistsByEmail(s, request.email) then Registration(s, Failure(EmailInUse))
    else if ExistsByUsername(s, request.username) then Registration(s, Failure(UsernameInUse))
    else
      var (s', saved) := Save(s, NewUser(request));
      Registration(s', Success(UserDto(saved.id, saved.username, saved.profile)))
  }

  /** When both the email and the username are taken, the email is reported. */
  lemma EmailCheckedFirst(s: Store, request: RegisterRequest)
    requires ExistsByEmail(s, request.email) && ExistsByUsername(s, request.username)
    ensures RegisterUser(s, request).outcome == Failure(EmailInUse)
  {
  }

  /** The record with the returned id is the saved record, and the DTO is its
      public projection; no other record has that id. */
  lemma ReturnedIdNamesSavedRecord(s: Store, request: RegisterRequest)
    requires IdsValid(s)
    requires RegisterUser(s, request).outcome.Success?
    ensures var r := RegisterUser(s, request);
      var dto := r.outcome.value;
      && IdsValid(r.store)
      && dto.id.Some?
      && (forall i :: 0 <= i < |r.store.users| && r.store.users[i].id == dto.id ==>
            && i == |s.users|
            && r.store.users[i].username == dto.username == request.username
            && r.store.users[i].profile == dto.profile)
  {
  }

  /** Registration keeps every email and every username held by at most one record. */
  lemma RegisterPreservesUniqueness(s: Store, request: RegisterRequest)
    requires Unique(s)
    ensures Unique(RegisterUser(s, request).store)
  {
    var r := RegisterUser(s, request);
    if r.outcome.Success? {
      var n := |s.users|;
      forall i, j | 0 <= i < j < |r.store.users|
        ensures r.store.users[i].email != r.store.users[j].email
        ensures r.store.users[i].username != r.store.users[j].username
      {
        assert r.store.users[i] == s.users[i];
        if j < n {
          assert r.store.users[j] == s.users[j];
        }
      }
    }
  }

  /** After a successful registration, the same request fails on the email
      check and changes nothing more. */
  lemma RegisterTwiceFails(s: Store, request: RegisterRequest)
    requires RegisterUser(s, request).outcome.Success?
    ensures var s' := RegisterUser(s, request).store;
      RegisterUser(s', request) == Registration(s', Failure(EmailInUse))
  {
    var s' := RegisterUser(s, request).store;
    assert s'.users[|s.users|].email == request.email;
  }
}

=== FILE: wrappers.dfy ===
/** Option and Result: Java's `null` and thrown exceptions, as values. */
module Wrappers {

  /** A Java reference that may be `null`. */
  datatype Option<+T> = None | Some(value: T)

  /** The normal return of an operation, or the message of the exception it throws. */
  datatype Result<+T, +E> = Success(value: T) | Failure(error: E)
}
